=== FILE: README.md ===
# Measure-then-render layout of a shaped glyph run

This project models the layout and compositing core of `freetype-harbuzz-icu`. The program shapes a
bidirectional text run with HarfBuzz and renders it with FreeType into one grayscale image. The
modelled core works in two passes over the shaped glyphs:

- **Metrics pass.** Load each glyph with the current pen translation set on the face. Union its
  control box into a running box seeded with `INT_MAX` / `INT_MIN`. Raise `aboveOriginShift` to the
  glyph's `height - horiBearingY`. Move the pen by the glyph's advance.
- **Canvas sizing.** The canvas is `(xMax - xMin) / 64` by `(yMax - yMin) / 64` pixels: 26.6 units
  divided with C's truncating `/`. It starts zero-filled.
- **Render pass.** Restart the pen at `(0, aboveOriginShift)`. Load each glyph again and OR its
  bitmap into the canvas with its top-left corner at `(bitmap_left, height - bitmap_top)`. This flips
  FreeType's y-up convention to the image's y-down rows.
- **`DrawGlyph`.** OR-composite one 8-bit bitmap into the row-major canvas, silently skipping every
  destination pixel outside `[0, width) x [0, height)`.

FreeType is modelled as a total function `Face.Loader` from a glyph index and a pen translation to
the glyph slot FreeType fills. That call stands for `FT_Set_Transform` followed by
`FT_Load_Glyph(..., FT_LOAD_RENDER)`. The slot holds the control box, the advance, `height`,
`horiBearingY`, the bitmap and its bearings. Both passes call the same loader, so the pen trajectory
is what is actually handed to the rasterizer. The shaped glyph list is an input.

Modules:

- `FixedPoint`: the 26.6 scale, the `int` sentinels and C truncating division.
- `Geometry`: vectors, boxes, and the running min/max folds.
- `Compositor`: bitmaps, canvases, the reference composite and the `DrawGlyph` loop.
- `Face`: the glyph slot and the loader.
- `Walk`: the metrics pass.
- `Render`: canvas sizing, the render pass, and `RenderText`, which runs both passes and calls
  `DrawGlyph` in a loop.
- `Alignment`: where the ink lands on a face that renders on the pixel grid (see Findings).

Three facts about the program shape the model:

- **Empty runs.** The program has no empty-run check: with no glyphs it would size the canvas from
  the untouched sentinels. The model therefore requires a non-empty run, and
  `Render.EmptyRunHasNoCanvas` shows that the sentinel box gives a negative size.
- **What `aboveOriginShift` measures.** Despite its name, `height - horiBearingY` is how far the ink
  reaches *below* the baseline. Raising the pen by that amount is what keeps descenders on the
  canvas (`Alignment.MeasureAligned`).
- **Order independence.** OR-compositing commutes for any overlap, not only for glyphs whose
  rectangles are disjoint (`Compositor.CompositeCommutes`).

## Model

| member | source | states |
|---|---|---|
| `Compositor.DrawGlyph` | freetype-harbuzz-icu.cpp:15-36 | The nested column/row loop computes exactly the reference composite. It writes only in-bounds cells, whatever `(x, y)` is. Every in-bounds cell under the bitmap becomes old OR `buffer[(j-y)*w + (i-x)]`. Every other cell is unchanged. |
| `Compositor.PartialComplete` | freetype-harbuzz-icu.cpp:26-33 | Once the column loop has visited every column of the bitmap, the walk's progress equals the cell-by-cell reference composite. |
| `Compositor.CompositePixel` | freetype-harbuzz-icu.cpp:23-33 | Cell by cell: a covered in-bounds cell gets old OR bitmap byte; an uncovered cell keeps its value (the frame condition). |
| `Compositor.Composite` | freetype-harbuzz-icu.cpp:33 | Compositing never clears a bit of any pixel: old OR new == new everywhere. Width and height are kept. |
| `Compositor.CompositeIdempotent` | freetype-harbuzz-icu.cpp:33 | Drawing the same bitmap at the same place twice equals drawing it once. |
| `Compositor.CompositeCommutes` | freetype-harbuzz-icu.cpp:33 | Two bitmaps drawn in either order, at any positions, give the same canvas. |
| `FixedPoint.TruncDiv` | freetype-harbuzz-icu.cpp:200-201 | C `/`: the quotient is truncated toward zero, and its size is bounded by the dividend on both signs. |
| `FixedPoint.ToPixels` | freetype-harbuzz-icu.cpp:200-201 | 26.6 to whole pixels by truncation: the floor on non-negative values, the ceiling on negative ones. |
| `Geometry.Include` | freetype-harbuzz-icu.cpp:190-193 | The four conditional updates give the smallest box containing both the running box and the glyph box. |
| `Geometry.MinFrom` | freetype-harbuzz-icu.cpp:190-191 | The running `<` update seeded with `INT_MAX` ends at the minimum of seed and elements, equal to the seed or to some element. |
| `Geometry.MaxFrom` | freetype-harbuzz-icu.cpp:192-196 | The running `>` update seeded with `INT_MIN` ends at the maximum of seed and elements, equal to the seed or to some element. |
| `Walk.MeasureFromIsFolds` | freetype-harbuzz-icu.cpp:176-197 | The fused metrics loop equals three separate computations: the end of the pen walk, a min/max fold per box bound over the glyph boxes, and a max fold over glyph depths. |
| `Walk.PenIsAdvanceSum` | freetype-harbuzz-icu.cpp:168-188 | Before glyph k the pen is the start plus the advances of glyphs 0..k-1. After the walk it is the start plus all advances. |
| `Walk.TrajectoryShift` | freetype-harbuzz-icu.cpp:206-217 | A walk started at `start + d` visits every pen position of the walk from `start`, moved by `d`. So the render pass retraces the metrics pass offset by `(0, aboveOriginShift)`. |
| `Walk.EmptyRunKeepsSentinels` | freetype-harbuzz-icu.cpp:165-174 | With no glyphs, the pen stays at the origin and the box and shift keep their `INT_MAX` / `INT_MIN` sentinels. |
| `Walk.BBoxIsUnion` | freetype-harbuzz-icu.cpp:172-193 | The final box contains every glyph's control box at its pen position. Each bound is the sentinel or the matching bound of some glyph. |
| `Walk.BBoxBoundsAttained` | freetype-harbuzz-icu.cpp:190-193 | For a non-empty run whose glyph boxes fit in an `int`, every bound is the extreme bound of some glyph. |
| `Walk.BBoxWellFormed` | freetype-harbuzz-icu.cpp:190-193 | A non-empty run of well-formed glyph boxes gives `xMin <= xMax` and `yMin <= yMax`. |
| `Walk.ShiftIsMaxDepth` | freetype-harbuzz-icu.cpp:195-196 | `aboveOriginShift` is at least every glyph's `height - horiBearingY`. It is `INT_MIN` or one of those values. |
| `Walk.MeasurePenIsAdvanceSum` | freetype-harbuzz-icu.cpp:187-188 | The metrics loop's final translation is the sum of all advances. |
| `Render.BlankCanvas` | freetype-harbuzz-icu.cpp:200-203 | The canvas is the floor of each 26.6 extent over 64 pixels wide/high, holds exactly width*height bytes, and all are 0. |
| `Render.InkIncludes` | freetype-harbuzz-icu.cpp:33 | The ink at a cell holds every bit any single glyph contributes there. |
| `Render.DrawAllPixel` | freetype-harbuzz-icu.cpp:208-218 | After drawing a list of placements, each cell is its old value OR every placement's contribution there. |
| `Render.RenderIsDrawAll` | freetype-harbuzz-icu.cpp:206-218 | The render loop composites, in run order, each glyph's bitmap at `(bitmap_left, height - bitmap_top)`. The slot is the one loaded at the glyph's pen position along the walk. |
| `Render.RenderText` | freetype-harbuzz-icu.cpp:165-218 | Both passes, with `DrawGlyph` called in a loop, compute the functional render pass on a canvas `(xMax-xMin)/64` by `(yMax-yMin)/64` pixels. |
| `Render.EmptyRunHasNoCanvas` | freetype-harbuzz-icu.cpp:172-201 | For an empty run the sentinel box is inverted and both canvas extents truncate to negative sizes. |
| `Render.RenderedRun` | freetype-harbuzz-icu.cpp:199-218 | The rendered canvas is `(xMax-xMin)/64` by `(yMax-yMin)/64`. Every cell is the OR of the ink the glyphs place there. The render pens are the metrics pens raised by `aboveOriginShift`. |
| `Alignment.BoxSlot` | freetype-harbuzz-icu.cpp:183-193 | A face whose control boxes are its bitmap rectangles reports only well-formed control boxes, at every glyph and pen. |
| `Alignment.WholePixelBox` | freetype-harbuzz-icu.cpp:183-184 | A control box that is a rendered bitmap's rectangle has all four bounds on the 64-unit pixel grid. |
| `Alignment.MeasureAligned` | freetype-harbuzz-icu.cpp:165-197 | On a pixel-aligned face the box has whole-pixel bounds. `aboveOriginShift` equals `-yMin`, the depth of the run below its baseline. |
| `Alignment.PlacementOf` | freetype-harbuzz-icu.cpp:206-214 | With the render pen started at `(dx, aboveOriginShift)`, glyph k is the metrics-pass bitmap moved right by `dx/64`, and its rows always fit the canvas height. |
| `Alignment.AlignedPlacementWithin` | freetype-harbuzz-icu.cpp:206-214 | With the pen started at `(-xMin, aboveOriginShift)`, each glyph's bitmap rectangle lies inside the canvas. |
| `Alignment.WithinKeepsInk` | freetype-harbuzz-icu.cpp:206-218 | When every placement's rectangle lies inside the canvas, every byte of every placed bitmap is included in the canvas cell it lands on after all are drawn. |
| `Alignment.AlignedKeepsAllInk` | freetype-harbuzz-icu.cpp:206-214 | In the corrected render pass every rectangle lies inside the canvas, and every bit of every glyph's bitmap is on it. |
| `Alignment.AsWrittenClipsInk` | freetype-harbuzz-icu.cpp:206-214 | On a pixel-aligned one-dot face the source's render pass leaves the 1x1 canvas blank. The corrected pass draws the dot. |

## Left out

- UTF-8 / UTF-16 conversion and bidi reordering (freetype-harbuzz-icu.cpp:104-128): calls into ICU whose behaviour is not visible here.
- HarfBuzz shaping (freetype-harbuzz-icu.cpp:134-154): a foreign call. Its output, the list of glyph indices, is the model's input.
- FreeType initialisation, face loading and char size (freetype-harbuzz-icu.cpp:74-86): foreign calls.
- FreeType glyph loading and rasterization (freetype-harbuzz-icu.cpp:180-185, 210-211): these are the `Loader` parameter. Its behaviour is stated only as the assumptions lemmas require, such as `AdvanceIgnoresTranslation` and `Alignment.PixelAligned`.
- `PrintPGM` (freetype-harbuzz-icu.cpp:39-54): text output to stdout.
- Argument checking and exit codes (freetype-harbuzz-icu.cpp:66-70): program plumbing.
- Integer widths are unbounded in the model. Not modelled: the conversion of `height - horiBearingY` to `int` (line 195); the unsigned arithmetic in `x + glyphBitmap->width` (lines 23-24); overflow of `j * width + i` and of `width*height` (lines 33, 203); overflow of the `FT_Pos` pen sums. All these values are pixel and 26.6 sizes of one line of text.
- An empty glyph run is excluded by precondition. The source does not handle it: `INT_MIN - INT_MAX` sizing is meaningless there.
- The bitmap stride is its width, as the source indexes it. FreeType's `pitch` field is not modelled.
- `Alignment.PixelAligned` constrains `height` and `horiBearingY` only at pens on a pixel row (`y` a multiple of 64), which are the only pens the two passes visit. What FreeType reports at pens between pixel rows is not modelled.
- `Walk.BBoxBoundsAttained`: requires the glyph boxes to fit in an `int`. A box beyond `INT_MAX` would leave the sentinel in place, and that case is covered only by `Walk.BBoxIsUnion`.

## Findings

| source | as written | input that shows it | evidently intended | confidence | as-written member | corrected member |
|---|---|---|---|---|---|---|
| freetype-harbuzz-icu.cpp:206-214 | The render pen restarts at `(0, aboveOriginShift)`. Glyphs land at their absolute `bitmap_left`, although the canvas is only `(xMax - xMin)/64` wide. So the ink is shifted by `xMin/64` and clipped at the right edge when `xMin > 0`, or at the left edge when `xMin < 0`. | One glyph: a 1x1 dot of 0xff one pixel right of the pen. Its box is `[64,128) x [0,64)`, so the canvas is 1x1. The dot is drawn at column 1, which is skipped, and the image stays 0. | Restart the pen at `(-bbox.xMin, aboveOriginShift)`, the horizontal counterpart of the vertical shift. Then every glyph lies inside the canvas. | medium; not executed | `Alignment.AsWrittenClipsInk` | `Alignment.AlignedKeepsAllInk` |

=== FILE: alignment.dfy ===
/** Where the render pass puts the ink, for a face that behaves like a hinted
    FreeType outline face loaded with `FT_LOAD_RENDER` in a horizontal run.
    The code as written raises the pen by `aboveOriginShift` so that no row
    of ink falls off the canvas, but does not move it left by `bbox.xMin`, so
    columns of ink fall off whenever the run's ink does not start at x = 0.
    `RenderAligned` starts the pen at `(-bbox.xMin, aboveOriginShift)`. */
module Alignment {
  import opened FixedPoint
  import opened Geometry
  import opened Compositor
  import opened Face
  import opened Walk
  import opened Render

  /** The control box `FT_Glyph_Get_CBox` reports for a bitmap glyph: its
      pixel rectangle, in 26.6. */
  function BitmapBox(s: GlyphSlot): BBox {
    BBox(s.bitmapLeft * SubpixelScale, (s.bitmapTop - s.bitmap.rows) * SubpixelScale,
         (s.bitmapLeft + s.bitmap.width) * SubpixelScale, s.bitmapTop * SubpixelScale)
  }

  /** The control box is the rendered bitmap's rectangle. */
  ghost predicate BoxesAreBitmaps(face: Loader) {
    forall g, p :: face(g, p).cbox == BitmapBox(face(g, p))
  }

  /** At a pen on a pixel row the metrics agree with the bitmap: `height` is
      its rows and `horiBearingY` its top edge above the pen's baseline.
      `FT_Set_Transform` moves the outline but not the metrics, so this only
      constrains pens whose `y` is a whole number of pixels, where moving the
      pen moves `bitmapTop` by exactly as many pixels and `horiBearingY` stays
      the same; pens between pixel rows are left unconstrained. */
  ghost predicate MetricsMatchBitmaps(face: Loader) {
    forall g, p: Vector :: p.y % SubpixelScale == 0 ==>
      && face(g, p).height == face(g, p).bitmap.rows * SubpixelScale
      && face(g, p).horiBearingY == face(g, p).bitmapTop * SubpixelScale - p.y
  }

  /** Translating by whole pixels moves the same bitmap by as many pixels. */
  ghost predicate WholePixelShifts(face: Loader) {
    forall g, p: Vector, q: Vector {:trigger face(g, p), face(g, q)} ::
      (q.x - p.x) % SubpixelScale == 0 && (q.y - p.y) % SubpixelScale == 0 ==>
        && face(g, q).bitmap == face(g, p).bitmap
        && face(g, q).bitmapLeft == face(g, p).bitmapLeft + (q.x - p.x) / SubpixelScale
        && face(g, q).bitmapTop == face(g, p).bitmapTop + (q.y - p.y) / SubpixelScale
  }

  /** Every advance is horizontal. */
  ghost predicate HorizontalAdvances(face: Loader) {
    forall g, p :: face(g, p).advance.y == 0
  }

  /** A face whose glyphs render on the pixel grid in a horizontal run: the
      assumptions about a hinted outline face loaded with `FT_LOAD_RENDER`
      under which the ink's placement can be computed from the metrics. The
      metrics pass visits pens with `y == 0`; the render pass visits pens with
      `y == aboveOriginShift`, which `MeasureAligned` shows is a whole number
      of pixels. */
  ghost predicate PixelAligned(face: Loader) {
    && AdvanceIgnoresTranslation(face)
    && HorizontalAdvances(face)
    && BoxesAreBitmaps(face)
    && MetricsMatchBitmaps(face)
    && WholePixelShifts(face)
  }

  /** The placement's rectangle lies inside a `width` by `height` canvas. */
  predicate Within(p: Placement, width: int, height: int) {
    0 <= p.x && p.x + p.bitmap.width <= width && 0 <= p.y && p.y + p.bitmap.rows <= height
  }

  /** With horizontal advances the pen never leaves its starting baseline. */
  lemma {:induction false} TrajectoryLevel(face: Loader, start: Vector, glyphs: seq<GlyphId>)
    requires HorizontalAdvances(face)
    ensures forall k :: 0 <= k < |glyphs| ==> Trajectory(face, start, glyphs)[k].y == start.y
    decreases |glyphs|
  {
    if |glyphs| > 0 {
      var next := start.Plus(face(glyphs[0], start).advance);
      TrajectoryLevel(face, next, glyphs[1..]);
      var pens := Trajectory(face, start, glyphs);
      assert forall k :: 1 <= k < |glyphs| ==> pens[k] == Trajectory(face, next, glyphs[1..])[k - 1];
    }
  }

  /** A glyph's depth below the baseline is how far its box reaches below
      the pen, and its box has whole-pixel bounds that fit in an `int`. */
  lemma AlignedSlot(face: Loader, g: GlyphId, p: Vector)
    requires BoxesAreBitmaps(face) && MetricsMatchBitmaps(face)
    requires p.y % SubpixelScale == 0
    ensures var s := face(g, p);
      && Depth(s) == p.y - s.cbox.yMin
      && s.cbox.WellFormed()
      && s.cbox.xMin % SubpixelScale == 0 && s.cbox.yMin % SubpixelScale == 0
      && s.cbox.xMin == s.bitmapLeft * SubpixelScale
      && s.cbox.xMax == (s.bitmapLeft + s.bitmap.width) * SubpixelScale
      && s.cbox.yMin == (s.bitmapTop - s.bitmap.rows) * SubpixelScale
      && s.cbox.yMax == s.bitmapTop * SubpixelScale
  {
    assert face(g, p).cbox == BitmapBox(face(g, p));
  }

  /** A bitmap's rectangle is a real box, so every control box of a face
      whose boxes are its bitmaps is well formed. */
  lemma BoxSlot(face: Loader)
    requires BoxesAreBitmaps(face)
    ensures BoxesWellFormed(face)
  {
    forall g, p ensures face(g, p).cbox.WellFormed() {
      assert face(g, p).cbox == BitmapBox(face(g, p));
    }
  }

  /** A control box that is a bitmap rectangle has all four bounds on the
      pixel grid. */
  lemma WholePixelBox(face: Loader, g: GlyphId, p: Vector)
    requires BoxesAreBitmaps(face)
    ensures var b := face(g, p).cbox;
      && b.xMin % SubpixelScale == 0 && b.yMin % SubpixelScale == 0
      && b.xMax % SubpixelScale == 0 && b.yMax % SubpixelScale == 0
  {
    var s := face(g, p);
    assert s.cbox == BitmapBox(s);
    WholePixels(s.bitmapLeft);
    WholePixels(s.bitmapTop - s.bitmap.rows);
    WholePixels(s.bitmapLeft + s.bitmap.width);
    WholePixels(s.bitmapTop);
  }

  /** On a pixel-aligned face the metrics pass's box has whole-pixel bounds
      and `aboveOriginShift` is exactly how far it reaches below the baseline. */
  lemma MeasureAligned(face: Loader, glyphs: seq<GlyphId>)
    requires |glyphs| > 0
    requires PixelAligned(face) && RunFitsInInt(face, glyphs)
    ensures var m := Measure(face, glyphs);
      && m.bbox.xMin % SubpixelScale == 0 && m.bbox.yMin % SubpixelScale == 0
      && m.bbox.xMax % SubpixelScale == 0 && m.bbox.yMax % SubpixelScale == 0
      && m.aboveOriginShift == -m.bbox.yMin && m.aboveOriginShift % SubpixelScale == 0
  {
    var m, s := Measure(face, glyphs), Slots(face, Origin, glyphs);
    var pens := Trajectory(face, Origin, glyphs);
    TrajectoryLevel(face, Origin, glyphs);
    forall k | 0 <= k < |s|
      ensures Depth(s[k]) == -s[k].cbox.yMin
      ensures s[k].cbox.xMin % SubpixelScale == 0 && s[k].cbox.yMin % SubpixelScale == 0
    {
      AlignedSlot(face, glyphs[k], pens[k]);
    }
    BBoxBoundsAttained(face, glyphs);
    BBoxIsUnion(face, glyphs);
    ShiftIsMaxDepth(face, glyphs);
    var a :| 0 <= a < |s| && m.bbox.yMin == s[a].cbox.yMin;
    var a' :| 0 <= a' < |s| && m.bbox.xMin == s[a'].cbox.xMin;
    var c :| 0 <= c < |s| && m.bbox.xMax == s[c].cbox.xMax;
    var e :| 0 <= e < |s| && m.bbox.yMax == s[e].cbox.yMax;
    assert s[c] == face(glyphs[c], pens[c]) && s[e] == face(glyphs[e], pens[e]);
    WholePixelBox(face, glyphs[c], pens[c]);
    WholePixelBox(face, glyphs[e], pens[e]);
    assert m.aboveOriginShift >= -m.bbox.yMin by {
      assert Depth(s[a]) == -m.bbox.yMin;
    }
    assert Depth(s[0]) > IntMin;
    var b :| 0 <= b < |s| && m.aboveOriginShift == Depth(s[b]);
    assert s[b].cbox.yMin >= m.bbox.yMin;
    assert s[a] == face(glyphs[a], pens[a]);
    AlignedSlot(face, glyphs[a], pens[a]);
    var t := s[a].bitmap.rows - s[a].bitmapTop;
    assert m.aboveOriginShift == t * SubpixelScale;
    WholePixels(t);
  }

  /** One glyph loaded at a pen moved by whole pixels. */
  lemma ShiftedSlot(face: Loader, g: GlyphId, p: Vector, d: Vector)
    requires WholePixelShifts(face)
    requires d.x % SubpixelScale == 0 && d.y % SubpixelScale == 0
    ensures var s, r := face(g, p), face(g, p.Plus(d));
      && r.bitmap == s.bitmap
      && r.bitmapLeft == s.bitmapLeft + d.x / SubpixelScale
      && r.bitmapTop == s.bitmapTop + d.y / SubpixelScale
  {
    var q := p.Plus(d);
    assert q.x - p.x == d.x && q.y - p.y == d.y;
    assert face(g, q).bitmapTop == face(g, p).bitmapTop + (q.y - p.y) / SubpixelScale;
  }

  /** Glyph `k` of the render pass started at `(dx, aboveOriginShift)` with
      `dx` a whole number of pixels: it is the glyph of the metrics pass moved
      right by `dx` and down onto the canvas, and its rows always fit. */
  lemma PlacementOf(face: Loader, glyphs: seq<GlyphId>, dx: int, k: int)
    requires |glyphs| > 0
    requires PixelAligned(face) && RunFitsInInt(face, glyphs)
    requires dx % SubpixelScale == 0
    requires 0 <= k < |glyphs|
    ensures BoxesWellFormed(face)
    ensures var m := Measure(face, glyphs);
      var blank := (BBoxWellFormed(face, glyphs); BlankCanvas(m.bbox));
      var p := Placements(face, Vector(dx, m.aboveOriginShift), glyphs, blank.height)[k];
      var s := Slots(face, Origin, glyphs)[k];
      && p.bitmap == s.bitmap
      && p.x == s.bitmapLeft + dx / SubpixelScale
      && m.bbox.xMin <= s.bitmapLeft * SubpixelScale
      && (s.bitmapLeft + s.bitmap.width) * SubpixelScale <= m.bbox.xMax
      && 0 <= p.y && p.y + p.bitmap.rows <= blank.height
  {
    BoxSlot(face);
    var m := Measure(face, glyphs);
    BBoxWellFormed(face, glyphs);
    var blank := BlankCanvas(m.bbox);
    var d := Vector(dx, m.aboveOriginShift);
    MeasureAligned(face, glyphs);
    var pen := Trajectory(face, Origin, glyphs)[k];
    assert pen.y == 0 by {
      TrajectoryLevel(face, Origin, glyphs);
    }
    var rpen := Trajectory(face, d, glyphs)[k];
    assert rpen == pen.Plus(d) by {
      assert Origin.Plus(d) == d;
      TrajectoryShift(face, Origin, d, glyphs);
    }
    var s := Slots(face, Origin, glyphs)[k];
    assert s == face(glyphs[k], pen);
    assert m.bbox.Contains(s.cbox) by {
      BBoxIsUnion(face, glyphs);
    }
    AlignedSlot(face, glyphs[k], pen);
    ShiftedSlot(face, glyphs[k], pen, d);
    var r := face(glyphs[k], rpen);
    var p := Placements(face, d, glyphs, blank.height)[k];
    assert p == PlaceSlot(r, blank.height);
    assert p.y == blank.height - s.bitmapTop - m.aboveOriginShift / SubpixelScale;
  }

  /** The corrected render pass: the pen restarts at `(-bbox.xMin, aboveOriginShift)`. */
  function RenderAligned(face: Loader, glyphs: seq<GlyphId>): Canvas
    requires |glyphs| > 0
    requires BoxesWellFormed(face)
  {
    var m := Measure(face, glyphs);
    BBoxWellFormed(face, glyphs);
    RenderFrom(face, BlankCanvas(m.bbox), Vector(-m.bbox.xMin, m.aboveOriginShift), glyphs)
  }

  /** With the pen moved left by `bbox.xMin`, glyph `k`'s bitmap lies inside the canvas. */
  lemma AlignedPlacementWithin(face: Loader, glyphs: seq<GlyphId>, k: int)
    requires |glyphs| > 0
    requires PixelAligned(face) && RunFitsInInt(face, glyphs)
    requires 0 <= k < |glyphs|
    ensures BoxesWellFormed(face)
    ensures var m, c := Measure(face, glyphs), RenderAligned(face, glyphs);
      Within(Placements(face, Vector(-m.bbox.xMin, m.aboveOriginShift), glyphs, c.height)[k], c.width, c.height)
  {
    var m := Measure(face, glyphs);
    MeasureAligned(face, glyphs);
    var t := m.bbox.xMin / SubpixelScale;
    assert m.bbox.xMin == t * SubpixelScale;
    WholePixels(-t);
    assert -m.bbox.xMin == (-t) * SubpixelScale;
    PlacementOf(face, glyphs, -m.bbox.xMin, k);
    var blank := BlankCanvas(m.bbox);
    var c := RenderAligned(face, glyphs);
    assert c.width == blank.width && c.height == blank.height;
  }

  /** When every placement lies inside the canvas, drawing them all leaves
      every bit of every bitmap on the canvas. */
  lemma WithinKeepsInk(blank: Canvas, ps: seq<Placement>)
    requires forall k :: 0 <= k < |ps| ==> Within(ps[k], blank.width, blank.height)
    ensures var c := DrawAll(blank, ps);
      forall k, p, q :: 0 <= k < |ps| && 0 <= p < ps[k].bitmap.width && 0 <= q < ps[k].bitmap.rows ==>
        0 <= ps[k].x + p < c.width && 0 <= ps[k].y + q < c.height &&
        At(c, ps[k].x + p, ps[k].y + q) | BitmapAt(ps[k].bitmap, p, q) == At(c, ps[k].x + p, ps[k].y + q)
  {
    var c := DrawAll(blank, ps);
    forall k, p, q | 0 <= k < |ps| && 0 <= p < ps[k].bitmap.width && 0 <= q < ps[k].bitmap.rows
      ensures 0 <= ps[k].x + p < c.width && 0 <= ps[k].y + q < c.height
      ensures At(c, ps[k].x + p, ps[k].y + q) | BitmapAt(ps[k].bitmap, p, q) == At(c, ps[k].x + p, ps[k].y + q)
    {
      var i, j := ps[k].x + p, ps[k].y + q;
      assert Within(ps[k], c.width, c.height);
      DrawAllPixel(blank, ps, i, j);
      InkIncludes(ps, k, i, j);
      assert Contribution(ps[k], i, j) == BitmapAt(ps[k].bitmap, p, q);
    }
  }

  /** With the pen moved left by `bbox.xMin`, every glyph's bitmap lies inside
      the canvas, so every bit of ink of every glyph is on it. */
  lemma AlignedKeepsAllInk(face: Loader, glyphs: seq<GlyphId>)
    requires |glyphs| > 0
    requires PixelAligned(face) && RunFitsInInt(face, glyphs)
    ensures BoxesWellFormed(face)
    ensures var m, c := Measure(face, glyphs), RenderAligned(face, glyphs);
      var ps := Placements(face, Vector(-m.bbox.xMin, m.aboveOriginShift), glyphs, c.height);
      && (forall k :: 0 <= k < |ps| ==> Within(ps[k], c.width, c.height))
      && (forall k, p, q :: 0 <= k < |ps| && 0 <= p < ps[k].bitmap.width && 0 <= q < ps[k].bitmap.rows ==>
            0 <= ps[k].x + p < c.width && 0 <= ps[k].y + q < c.height &&
            At(c, ps[k].x + p, ps[k].y + q) | BitmapAt(ps[k].bitmap, p, q) == At(c, ps[k].x + p, ps[k].y + q))
  {
    AlignedPlacementWithin(face, glyphs, 0);
    var m := Measure(face, glyphs);
    BBoxWellFormed(face, glyphs);
    var blank := BlankCanvas(m.bbox);
    var c := RenderAligned(face, glyphs);
    var start := Vector(-m.bbox.xMin, m.aboveOriginShift);
    var ps := Placements(face, start, glyphs, c.height);
    forall k | 0 <= k < |ps| ensures Within(ps[k], c.width, c.height) {
      AlignedPlacementWithin(face, glyphs, k);
    }
    assert c == DrawAll(blank, ps) by {
      RenderIsDrawAll(face, blank, start, glyphs);
    }
    WithinKeepsInk(blank, ps);
  }

  /** A face with one glyph, a single full-coverage pixel one pixel right of
      the pen, advancing two pixels: the smallest pixel-aligned face whose
      ink does not start at x = 0. */
  function DotFace(): Loader {
    (g: GlyphId, p: Vector) =>
      var left, top := 1 + p.x / SubpixelScale, 1 + p.y / SubpixelScale;
      GlyphSlot(BBox(left * SubpixelScale, (top - 1) * SubpixelScale, (left + 1) * SubpixelScale, top * SubpixelScale),
                Vector(2 * SubpixelScale, 0), SubpixelScale, SubpixelScale,
                BitmapData(1, 1, [0xff]), left, top)
  }

  /** `DotFace` is pixel-aligned, and its one glyph at the origin has the
      ink box `[64, 128) x [0, 64)`. */
  lemma DotFaceAligned()
    ensures PixelAligned(DotFace()) && RunFitsInInt(DotFace(), [0])
    ensures BoxesWellFormed(DotFace())
    ensures Measure(DotFace(), [0]) == Metrics(Vector(128, 0), BBox(64, 0, 128, 64), 0)
  {
    var face := DotFace();
    assert face(0, Origin).cbox == BBox(64, 0, 128, 64);
    BoxSlot(face);
    assert MetricsMatchBitmaps(face) by {
      forall g, p: Vector | p.y % SubpixelScale == 0
        ensures face(g, p).horiBearingY == face(g, p).bitmapTop * SubpixelScale - p.y
      {
        var t := p.y / SubpixelScale;
        assert p.y == t * SubpixelScale;
        assert face(g, p).bitmapTop == 1 + t;
      }
    }
    assert RunFitsInInt(face, [0]) by {
      assert Slots(face, Origin, [0])[0] == face(0, Origin);
    }
  }

  /** On `DotFace` the code as written sizes a 1 by 1 canvas from the ink box
      but draws the dot at column 1, off the canvas, so the image stays blank;
      starting the pen at `-bbox.xMin` puts the dot at column 0. */
  lemma AsWrittenClipsInk()
    ensures PixelAligned(DotFace()) && RunFitsInInt(DotFace(), [0])
    ensures BoxesWellFormed(DotFace())
    ensures RenderAsWritten(DotFace(), [0]).pixels == [0]
    ensures RenderAligned(DotFace(), [0]).pixels == [0xff]
  {
    DotFaceAligned();
    var face := DotFace();
    var m := Measure(face, [0]);
    var blank := BlankCanvas(m.bbox);
    assert blank.width == 1 && blank.height == 1 && blank.pixels == [0];
    var dot: Bitmap := BitmapData(1, 1, [0xff]);
    assert RenderAsWritten(face, [0]).pixels == [0] by {
      var written := RenderAsWritten(face, [0]);
      assert written == Composite(blank, dot, 1, 0);
      CompositePixel(blank, dot, 1, 0, 0, 0);
      assert written.pixels == [At(written, 0, 0)];
    }
    assert RenderAligned(face, [0]).pixels == [0xff] by {
      var aligned := RenderAligned(face, [0]);
      assert face(0, Vector(-64, 0)).bitmapLeft == 0;
      assert aligned == Composite(blank, dot, 0, 0);
      CompositePixel(blank, dot, 0, 0, 0, 0);
      assert aligned.pixels == [At(aligned, 0, 0)];
    }
  }
}

=== FILE: compositor.dfy ===
/** `DrawGlyph`: clipped OR-compositing of an 8-bit glyph bitmap into a
    row-major 8-bit canvas. */
module Compositor {

  /** An 8-bit `FT_Bitmap` whose rows are `width` bytes apart (the stride the
      compositor reads with). */
  datatype BitmapData = BitmapData(width: nat, rows: nat, buffer: seq<bv8>)

  type Bitmap = b: BitmapData | |b.buffer| == b.width * b.rows
    witness BitmapData(0, 0, [])

  /** The row-major coverage image: pixel `(i, j)` is byte `j * width + i`. */
  datatype CanvasData = CanvasData(width: nat, height: nat, pixels: seq<bv8>)

  type Canvas = c: CanvasData | |c.pixels| == c.width * c.height
    witness CanvasData(0, 0, [])

  /** Multiplying by a non-negative width preserves order. */
  lemma MulMonotone(a: int, b: int, w: nat)
    requires a <= b
    ensures a * w <= b * w
  {
    assert b * w - a * w == (b - a) * w;
  }

  /** Row-major position `j * w + i` of a cell inside a `w`-wide, `h`-high grid. */
  lemma IndexInRange(w: nat, h: nat, i: int, j: int)
    requires 0 <= i < w && 0 <= j < h
    ensures 0 <= j * w + i < w * h
  {
    MulMonotone(0, j, w);
    MulMonotone(j, h - 1, w);
    assert (h - 1) * w == h * w - w;
  }

  /** Euclidean division has exactly one quotient and remainder. */
  lemma DivModUnique(k: int, w: nat, q: int, r: int)
    requires w > 0 && k == q * w + r && 0 <= r < w
    ensures k / w == q && k % w == r
  {
    var d := k / w - q;
    assert d * w == r - k % w by {
      assert k == (k / w) * w + k % w;
      assert d * w == (k / w) * w - q * w;
    }
    if d >= 1 {
      MulMonotone(1, d, w);
    } else if d <= -1 {
      MulMonotone(d, -1, w);
    }
  }

  /** The row-major position of a cell decodes back to its column and row. */
  lemma IndexCoordinates(w: nat, h: nat, i: int, j: int)
    requires 0 <= i < w && 0 <= j < h
    ensures (j * w + i) % w == i && (j * w + i) / w == j
  {
    DivModUnique(j * w + i, w, j, i);
  }

  /** Every position of the grid is the row-major position of a cell in range. */
  lemma PositionCoordinates(w: nat, h: nat, k: int)
    requires 0 <= k < w * h
    ensures w > 0 && 0 <= k % w < w && 0 <= k / w < h && k == (k / w) * w + k % w
  {
    if k / w >= h {
      MulMonotone(h, k / w, w);
    }
  }

  function BitmapAt(b: Bitmap, p: int, q: int): bv8
    requires 0 <= p < b.width && 0 <= q < b.rows
  {
    IndexInRange(b.width, b.rows, p, q);
    b.buffer[q * b.width + p]
  }

  function At(c: Canvas, i: int, j: int): bv8
    requires 0 <= i < c.width && 0 <= j < c.height
  {
    IndexInRange(c.width, c.height, i, j);
    c.pixels[j * c.width + i]
  }

  /** Destination `(i, j)` lies under the bitmap when its top-left corner is at `(x, y)`. */
  predicate Covers(b: Bitmap, x: int, y: int, i: int, j: int) {
    x <= i < x + b.width && y <= j < y + b.rows
  }

  /** The canvas after drawing `b` with its top-left corner at `(x, y)`,
      position by position: a cell under the bitmap is OR-ed with the bitmap
      byte above it; every other cell keeps its value. */
  function Composite(c: Canvas, b: Bitmap, x: int, y: int): (r: Canvas)
    ensures r.width == c.width && r.height == c.height
    ensures forall k :: 0 <= k < |c.pixels| ==> c.pixels[k] | r.pixels[k] == r.pixels[k]
  {
    var s := seq(|c.pixels|, k requires 0 <= k < |c.pixels| =>
      PositionCoordinates(c.width, c.height, k);
      var i, j := k % c.width, k / c.width;
      if Covers(b, x, y, i, j) then c.pixels[k] | BitmapAt(b, i - x, j - y) else c.pixels[k]);
    CanvasData(c.width, c.height, s)
  }

  /** The composite part-way through the column-then-row walk: cells under
      the bitmap and before column `ci`, or in column `ci` above row `cj`, are
      OR-ed with the bitmap; every other cell keeps its value. */
  function PartialComposite(c: Canvas, b: Bitmap, x: int, y: int, ci: int, cj: int): (r: Canvas)
    ensures r.width == c.width && r.height == c.height
  {
    var s := seq(|c.pixels|, k requires 0 <= k < |c.pixels| =>
      PositionCoordinates(c.width, c.height, k);
      var i, j := k % c.width, k / c.width;
      if Covers(b, x, y, i, j) && (i < ci || (i == ci && j < cj))
      then c.pixels[k] | BitmapAt(b, i - x, j - y)
      else c.pixels[k]);
    CanvasData(c.width, c.height, s)
  }

  /** Nothing is drawn before the first column. */
  lemma PartialStart(c: Canvas, b: Bitmap, x: int, y: int)
    ensures PartialComposite(c, b, x, y, x, y) == c
  {
    var r := PartialComposite(c, b, x, y, x, y);
    assert forall k :: 0 <= k < |c.pixels| ==> r.pixels[k] == c.pixels[k];
  }

  /** Finishing every row of column `ci` is starting column `ci + 1`. */
  lemma PartialNextColumn(c: Canvas, b: Bitmap, x: int, y: int, ci: int)
    ensures PartialComposite(c, b, x, y, ci, y + b.rows) == PartialComposite(c, b, x, y, ci + 1, y)
  {
    var r, s := PartialComposite(c, b, x, y, ci, y + b.rows), PartialComposite(c, b, x, y, ci + 1, y);
    assert forall k :: 0 <= k < |c.pixels| ==> r.pixels[k] == s.pixels[k];
  }

  /** Visiting an on-canvas cell `(ci, cj)` under the bitmap ORs the bitmap
      byte into it. */
  lemma PartialNextRowInside(c: Canvas, b: Bitmap, x: int, y: int, ci: int, cj: int)
    requires Covers(b, x, y, ci, cj)
    requires 0 <= ci < c.width && 0 <= cj < c.height
    ensures cj * c.width + ci < |c.pixels|
    ensures PartialComposite(c, b, x, y, ci, cj + 1).pixels ==
      PartialComposite(c, b, x, y, ci, cj).pixels[cj * c.width + ci :=
        PartialComposite(c, b, x, y, ci, cj).pixels[cj * c.width + ci] | BitmapAt(b, ci - x, cj - y)]
  {
    var r, s := PartialComposite(c, b, x, y, ci, cj), PartialComposite(c, b, x, y, ci, cj + 1);
    IndexInRange(c.width, c.height, ci, cj);
    IndexCoordinates(c.width, c.height, ci, cj);
    var n := cj * c.width + ci;
    forall k | 0 <= k < |c.pixels| && k != n
      ensures s.pixels[k] == r.pixels[k]
    {
      PositionCoordinates(c.width, c.height, k);
    }
  }

  /** Visiting an off-canvas cell changes nothing. */
  lemma PartialNextRowOutside(c: Canvas, b: Bitmap, x: int, y: int, ci: int, cj: int)
    requires !(0 <= ci < c.width && 0 <= cj < c.height)
    ensures PartialComposite(c, b, x, y, ci, cj + 1) == PartialComposite(c, b, x, y, ci, cj)
  {
    var r, s := PartialComposite(c, b, x, y, ci, cj), PartialComposite(c, b, x, y, ci, cj + 1);
    forall k | 0 <= k < |c.pixels|
      ensures s.pixels[k] == r.pixels[k]
    {
      PositionCoordinates(c.width, c.height, k);
    }
  }

  /** Drawing every column of the bitmap is the whole composite. */
  lemma PartialComplete(c: Canvas, b: Bitmap, x: int, y: int)
    ensures PartialComposite(c, b, x, y, x + b.width, y) == Composite(c, b, x, y)
  {
    var r, s := PartialComposite(c, b, x, y, x + b.width, y), Composite(c, b, x, y);
    forall k | 0 <= k < |c.pixels|
      ensures r.pixels[k] == s.pixels[k]
    {
      PositionCoordinates(c.width, c.height, k);
    }
  }

  /** Pixel by pixel: a canvas cell under the bitmap becomes its old value OR
      the bitmap byte above it; every other cell is unchanged. */
  lemma CompositePixel(c: Canvas, b: Bitmap, x: int, y: int, i: int, j: int)
    requires 0 <= i < c.width && 0 <= j < c.height
    ensures Covers(b, x, y, i, j) ==>
      At(Composite(c, b, x, y), i, j) == At(c, i, j) | BitmapAt(b, i - x, j - y)
    ensures !Covers(b, x, y, i, j) ==> At(Composite(c, b, x, y), i, j) == At(c, i, j)
  {
    IndexInRange(c.width, c.height, i, j);
    IndexCoordinates(c.width, c.height, i, j);
  }

  /** The C routine: columns `i` from `x`, rows `j` from `y`, skipping every
      destination outside the canvas, OR-ing the bitmap byte into the rest. */
  method DrawGlyph(image: Canvas, bitmap: Bitmap, x: int, y: int) returns (out: Canvas)
    ensures out == Composite(image, bitmap, x, y)
    ensures out.width == image.width && out.height == image.height
    ensures forall i, j :: 0 <= i < image.width && 0 <= j < image.height && Covers(bitmap, x, y, i, j) ==>
      At(out, i, j) == At(image, i, j) | BitmapAt(bitmap, i - x, j - y)
    ensures forall i, j :: 0 <= i < image.width && 0 <= j < image.height && !Covers(bitmap, x, y, i, j) ==>
      At(out, i, j) == At(image, i, j)
  {
    var xMax := x + bitmap.width;
    var yMax := y + bitmap.rows;
    var pixels := image.pixels;
    PartialStart(image, bitmap, x, y);
    var i, p := x, 0;
    while i < xMax
      invariant x <= i <= xMax && p == i - x
      invariant pixels == PartialComposite(image, bitmap, x, y, i, y).pixels
    {
      var j, q := y, 0;
      while j < yMax
        invariant y <= j <= yMax && q == j - y
        invariant pixels == PartialComposite(image, bitmap, x, y, i, j).pixels
      {
        if !(i < 0 || j < 0 || i >= image.width || j >= image.height) {
          PartialNextRowInside(image, bitmap, x, y, i, j);
          IndexInRange(bitmap.width, bitmap.rows, p, q);
          pixels := pixels[j * image.width + i := pixels[j * image.width + i] | bitmap.buffer[q * bitmap.width + p]];
        } else {
          PartialNextRowOutside(image, bitmap, x, y, i, j);
        }
        j, q := j + 1, q + 1;
      }
      PartialNextColumn(image, bitmap, x, y, i);
      i, p := i + 1, p + 1;
    }
    PartialComplete(image, bitmap, x, y);
    out := CanvasData(image.width, image.height, pixels);
    forall i, j | 0 <= i < image.width && 0 <= j < image.height {
      CompositePixel(image, bitmap, x, y, i, j);
    }
  }

  /** Drawing the same bitmap at the same place twice leaves what drawing it
      once left: OR saturates. */
  lemma CompositeIdempotent(c: Canvas, b: Bitmap, x: int, y: int)
    ensures Composite(Composite(c, b, x, y), b, x, y) == Composite(c, b, x, y)
  {
    var once := Composite(c, b, x, y);
    var twice := Composite(once, b, x, y);
    forall k | 0 <= k < |c.pixels|
      ensures twice.pixels[k] == once.pixels[k]
    {
      PositionCoordinates(c.width, c.height, k);
    }
  }

  /** Two bitmaps drawn in either order give the same canvas, wherever they
      are placed and however they overlap. */
  lemma CompositeCommutes(c: Canvas, b1: Bitmap, x1: int, y1: int, b2: Bitmap, x2: int, y2: int)
    ensures Composite(Composite(c, b1, x1, y1), b2, x2, y2) ==
            Composite(Composite(c, b2, x2, y2), b1, x1, y1)
  {
    var r := Composite(Composite(c, b1, x1, y1), b2, x2, y2);
    var s := Composite(Composite(c, b2, x2, y2), b1, x1, y1);
    forall k | 0 <= k < |c.pixels|
      ensures r.pixels[k] == s.pixels[k]
    {
      PositionCoordinates(c.width, c.height, k);
    }
  }
}

=== FILE: face.dfy ===
/** What the layout code reads back from FreeType, modelled as data. Loading
    glyph `g` with the pen translation `p` set on the face
    (`FT_Set_Transform(face, NULL, &p)` followed by
    `FT_Load_Glyph(face, g, FT_LOAD_RENDER)`) fills the glyph slot; a `Loader`
    is that mapping from glyph and translation to slot. */
module Face {
  import opened Geometry
  import opened Compositor

  /** A HarfBuzz `hb_codepoint_t` after shaping: a glyph index of the face. */
  type GlyphId = nat

  /** The fields of the loaded `FT_GlyphSlot` the two passes read, plus the
      control box `FT_Glyph_Get_CBox(..., ft_glyph_bbox_subpixels, ...)`
      reports for it. Lengths are 26.6 except the bitmap and its bearings,
      which are whole pixels. */
  datatype GlyphSlot = GlyphSlot(
    cbox: BBox,
    advance: Vector,
    height: int,
    horiBearingY: int,
    bitmap: Bitmap,
    bitmapLeft: int,
    bitmapTop: int)

  type Loader = (GlyphId, Vector) -> GlyphSlot

  /** How far the glyph's ink reaches below its baseline origin: the quantity
      the metrics pass maximises into `aboveOriginShift`. */
  function Depth(s: GlyphSlot): int {
    s.height - s.horiBearingY
  }

  /** The translation set on the face moves the outline, not the pen advance. */
  ghost predicate AdvanceIgnoresTranslation(face: Loader) {
    forall g, p :: face(g, p).advance == face(g, Origin).advance
  }

  /** Every control box the face reports is a real box. */
  ghost predicate BoxesWellFormed(face: Loader) {
    forall g, p :: face(g, p).cbox.WellFormed()
  }
}

=== FILE: fixed_point.dfy ===
/** FreeType's 26.6 fixed-point coordinates and the C integer conventions the
    layout code relies on: truncating division and the `int` sentinels. */
module FixedPoint {

  /** Subpixel units per pixel in 26.6 fixed point. */
  const SubpixelScale: int := 64

  /** `INT_MAX` and `INT_MIN` of a 32-bit C `int`, used as the seeds of the
      bounding-box union and of the above-origin shift. */
  const IntMax: int := 0x7fff_ffff
  const IntMin: int := -0x8000_0000

  /** Euclidean division of a non-negative dividend brackets it between
      consecutive multiples of the divisor. */
  lemma DivBounds(n: nat, d: int)
    requires d > 0
    ensures 0 <= n / d && (n / d) * d <= n < (n / d) * d + d
  {
    assert n == (n / d) * d + n % d;
  }

  /** C's `/` on signed integers: the quotient is truncated toward zero, so
      the remainder takes the sign of the dividend (unlike Dafny's `/`). */
  function TruncDiv(a: int, d: int): (q: int)
    requires d > 0
    ensures a >= 0 ==> 0 <= q && q * d <= a < q * d + d
    ensures a < 0 ==> q <= 0 && q * d - d < a <= q * d
  {
    if a >= 0 then DivBounds(a, d); a / d else DivBounds(-a, d); -((-a) / d)
  }

  /** A 26.6 length converted to whole pixels by truncation. */
  function ToPixels(v: int): (n: int)
    ensures v >= 0 ==> 0 <= n && n * SubpixelScale <= v < n * SubpixelScale + SubpixelScale
    ensures v < 0 ==> n <= 0 && n * SubpixelScale - SubpixelScale < v <= n * SubpixelScale
  {
    TruncDiv(v, SubpixelScale)
  }

  /** A whole number of pixels is a multiple of the scale. */
  lemma WholePixels(n: int)
    ensures (n * SubpixelScale) % SubpixelScale == 0 && (n * SubpixelScale) / SubpixelScale == n
  {
  }
}

=== FILE: geometry.dfy ===
/** Vectors and boxes in 26.6 units, and the running minimum and maximum the
    metrics pass folds over the glyph run. */
module Geometry {
  import opened FixedPoint

  /** An `FT_Vector`: a pen position or an advance. */
  datatype Vector = Vector(x: int, y: int) {
    function Plus(v: Vector): Vector {
      Vector(x + v.x, y + v.y)
    }
  }

  const Origin: Vector := Vector(0, 0)

  /** An `FT_BBox`. */
  datatype BBox = BBox(xMin: int, yMin: int, xMax: int, yMax: int) {
    predicate WellFormed() {
      xMin <= xMax && yMin <= yMax
    }

    /** Every bound lies between `INT_MIN` and `INT_MAX`. */
    predicate FitsInInt() {
      && IntMin <= xMin <= IntMax && IntMin <= yMin <= IntMax
      && IntMin <= xMax <= IntMax && IntMin <= yMax <= IntMax
    }

    predicate Contains(b: BBox) {
      xMin <= b.xMin && yMin <= b.yMin && b.xMax <= xMax && b.yMax <= yMax
    }
  }

  /** The inverted box the union starts from: every real box replaces it. */
  const EmptyBox: BBox := BBox(IntMax, IntMax, IntMin, IntMin)

  /** Smaller of the running value and the next one, kept when equal (`if (v < m) m = v`). */
  function Lower(m: int, v: int): (r: int)
    ensures r <= m && r <= v && (r == m || r == v)
  {
    if v < m then v else m
  }

  /** Larger of the running value and the next one, kept when equal (`if (v > m) m = v`). */
  function Higher(m: int, v: int): (r: int)
    ensures r >= m && r >= v && (r == m || r == v)
  {
    if v > m then v else m
  }

  /** Grows `acc` to cover `b`, one comparison per bound. */
  function Include(acc: BBox, b: BBox): (r: BBox)
    ensures r.Contains(acc) && r.Contains(b)
    ensures forall c: BBox :: c.Contains(acc) && c.Contains(b) ==> c.Contains(r)
  {
    BBox(Lower(acc.xMin, b.xMin), Lower(acc.yMin, b.yMin),
         Higher(acc.xMax, b.xMax), Higher(acc.yMax, b.yMax))
  }

  /** Left fold of `Lower` over `xs` seeded with `init`: the minimum of the
      seed and every element, equal to the seed or to some element. */
  function MinFrom(init: int, xs: seq<int>): (r: int)
    ensures r <= init
    ensures forall k :: 0 <= k < |xs| ==> r <= xs[k]
    ensures r == init || exists k :: 0 <= k < |xs| && r == xs[k]
    decreases |xs|
  {
    if |xs| == 0 then init
    else
      var r := MinFrom(Lower(init, xs[0]), xs[1..]);
      assert forall k :: 1 <= k < |xs| ==> xs[k] == xs[1..][k - 1];
      r
  }

  /** Left fold of `Higher` over `xs` seeded with `init`: the maximum of the
      seed and every element, equal to the seed or to some element. */
  function MaxFrom(init: int, xs: seq<int>): (r: int)
    ensures r >= init
    ensures forall k :: 0 <= k < |xs| ==> r >= xs[k]
    ensures r == init || exists k :: 0 <= k < |xs| && r == xs[k]
    decreases |xs|
  {
    if |xs| == 0 then init
    else
      var r := MaxFrom(Higher(init, xs[0]), xs[1..]);
      assert forall k :: 1 <= k < |xs| ==> xs[k] == xs[1..][k - 1];
      r
  }
}

=== FILE: render.dfy ===
/** The render pass: size a zero-filled canvas from the metrics pass's box,
    walk the glyphs again and OR each rendered bitmap into the canvas. */
module Render {
  import opened FixedPoint
  import opened Geometry
  import opened Compositor
  import opened Face
  import opened Walk

  /** The canvas for a box: its 26.6 extents truncated to whole pixels, every
      pixel zero. */
  function BlankCanvas(bbox: BBox): (c: Canvas)
    requires bbox.WellFormed()
    ensures c.width * SubpixelScale <= bbox.xMax - bbox.xMin < c.width * SubpixelScale + SubpixelScale
    ensures c.height * SubpixelScale <= bbox.yMax - bbox.yMin < c.height * SubpixelScale + SubpixelScale
    ensures forall k :: 0 <= k < |c.pixels| ==> c.pixels[k] == 0
  {
    var w, h := ToPixels(bbox.xMax - bbox.xMin), ToPixels(bbox.yMax - bbox.yMin);
    CanvasData(w, h, seq(w * h, _ => 0))
  }

  /** A bitmap and the canvas position of its top-left corner. */
  datatype Placement = Placement(bitmap: Bitmap, x: int, y: int)

  /** Where the glyph in `slot` goes on a canvas `height` rows high: at its
      left bearing, and at its top bearing flipped from y-up to y-down. */
  function PlaceSlot(slot: GlyphSlot, height: int): Placement {
    Placement(slot.bitmap, slot.bitmapLeft, height - slot.bitmapTop)
  }

  /** The placement of every glyph when the run is walked from `start`. */
  function Placements(face: Loader, start: Vector, glyphs: seq<GlyphId>, height: int): (ps: seq<Placement>)
    ensures |ps| == |glyphs|
  {
    var s := Slots(face, start, glyphs);
    seq(|s|, k requires 0 <= k < |s| => PlaceSlot(s[k], height))
  }

  /** Composite every placement in turn. */
  function DrawAll(c: Canvas, ps: seq<Placement>): (r: Canvas)
    ensures r.width == c.width && r.height == c.height
    decreases |ps|
  {
    if |ps| == 0 then c
    else DrawAll(Composite(c, ps[0].bitmap, ps[0].x, ps[0].y), ps[1..])
  }

  /** The byte placement `p` puts at canvas cell `(i, j)`, zero if it does not cover it. */
  function Contribution(p: Placement, i: int, j: int): bv8 {
    if Covers(p.bitmap, p.x, p.y, i, j) then BitmapAt(p.bitmap, i - p.x, j - p.y) else 0
  }

  /** All the ink the placements put at `(i, j)`: the OR of their contributions. */
  function Ink(ps: seq<Placement>, i: int, j: int): bv8
    decreases |ps|
  {
    if |ps| == 0 then 0 else Contribution(ps[0], i, j) | Ink(ps[1..], i, j)
  }

  /** Each placement's contribution is part of the ink at that cell. */
  lemma {:induction false} InkIncludes(ps: seq<Placement>, k: int, i: int, j: int)
    requires 0 <= k < |ps|
    ensures Ink(ps, i, j) | Contribution(ps[k], i, j) == Ink(ps, i, j)
    decreases |ps|
  {
    if k > 0 {
      InkIncludes(ps[1..], k - 1, i, j);
      assert ps[1..][k - 1] == ps[k];
    }
  }

  /** After drawing every placement, each canvas cell holds its old value OR
      the ink of every placement covering it; cells no placement covers are
      unchanged. */
  lemma {:induction false} DrawAllPixel(c: Canvas, ps: seq<Placement>, i: int, j: int)
    requires 0 <= i < c.width && 0 <= j < c.height
    ensures At(DrawAll(c, ps), i, j) == At(c, i, j) | Ink(ps, i, j)
    decreases |ps|
  {
    if |ps| > 0 {
      var c' := Composite(c, ps[0].bitmap, ps[0].x, ps[0].y);
      CompositePixel(c, ps[0].bitmap, ps[0].x, ps[0].y, i, j);
      DrawAllPixel(c', ps[1..], i, j);
    }
  }

  /** The render loop over `glyphs`, pen starting at `start`: load each glyph
      at the pen, draw its bitmap at `(bitmap_left, height - bitmap_top)`,
      advance the pen. */
  function RenderFrom(face: Loader, c: Canvas, start: Vector, glyphs: seq<GlyphId>): (r: Canvas)
    ensures r.width == c.width && r.height == c.height
    decreases |glyphs|
  {
    if |glyphs| == 0 then c
    else
      var slot := face(glyphs[0], start);
      var p := PlaceSlot(slot, c.height);
      RenderFrom(face, Composite(c, p.bitmap, p.x, p.y), start.Plus(slot.advance), glyphs[1..])
  }

  /** The render loop is the composite, in run order, of every glyph at the
      place its slot along the pen walk gives it. */
  lemma {:induction false} RenderIsDrawAll(face: Loader, c: Canvas, start: Vector, glyphs: seq<GlyphId>)
    ensures RenderFrom(face, c, start, glyphs) == DrawAll(c, Placements(face, start, glyphs, c.height))
    decreases |glyphs|
  {
    if |glyphs| > 0 {
      var slot := face(glyphs[0], start);
      var p := PlaceSlot(slot, c.height);
      var c' := Composite(c, p.bitmap, p.x, p.y);
      var next := start.Plus(slot.advance);
      RenderIsDrawAll(face, c', next, glyphs[1..]);
      var ps, ps' := Placements(face, start, glyphs, c.height), Placements(face, next, glyphs[1..], c.height);
      assert ps[0] == p;
      assert ps[1..] == ps' by {
        var pens := Trajectory(face, start, glyphs);
        assert pens[1..] == Trajectory(face, next, glyphs[1..]);
        forall k | 0 <= k < |ps'| ensures ps[1..][k] == ps'[k] {
          assert glyphs[1..][k] == glyphs[k + 1];
        }
      }
    }
  }

  /** The render pass as the source writes it: a blank canvas sized from the
      metrics box, the pen restarted at `(0, aboveOriginShift)`. */
  function RenderAsWritten(face: Loader, glyphs: seq<GlyphId>): Canvas
    requires |glyphs| > 0
    requires BoxesWellFormed(face)
  {
    var m := Measure(face, glyphs);
    BBoxWellFormed(face, glyphs);
    RenderFrom(face, BlankCanvas(m.bbox), Vector(0, m.aboveOriginShift), glyphs)
  }

  /** The metrics pass followed by the render loop, drawing each glyph with
      `DrawGlyph` into the one canvas. */
  method RenderText(face: Loader, glyphs: seq<GlyphId>) returns (image: Canvas)
    requires |glyphs| > 0
    requires BoxesWellFormed(face)
    ensures image == RenderAsWritten(face, glyphs)
    ensures var b := Measure(face, glyphs).bbox;
      image.width == ToPixels(b.xMax - b.xMin) && image.height == ToPixels(b.yMax - b.yMin)
  {
    var m := Measure(face, glyphs);
    BBoxWellFormed(face, glyphs);
    image := BlankCanvas(m.bbox);
    var translation := Vector(0, m.aboveOriginShift);
    var n := 0;
    while n < |glyphs|
      invariant 0 <= n <= |glyphs|
      invariant RenderFrom(face, image, translation, glyphs[n..]) == RenderAsWritten(face, glyphs)
      invariant image.width == BlankCanvas(m.bbox).width && image.height == BlankCanvas(m.bbox).height
    {
      var slot := face(glyphs[n], translation);
      image := DrawGlyph(image, slot.bitmap, slot.bitmapLeft, image.height - slot.bitmapTop);
      translation := translation.Plus(slot.advance);
      assert glyphs[n..][1..] == glyphs[n + 1..];
      n := n + 1;
    }
  }

  /** An empty run leaves the sentinel box inverted, and truncating its
      extents gives a negative canvas size: the reason a run must have glyphs. */
  lemma EmptyRunHasNoCanvas(face: Loader)
    ensures var b := Measure(face, []).bbox;
      && !b.WellFormed()
      && ToPixels(b.xMax - b.xMin) < 0 && ToPixels(b.yMax - b.yMin) < 0
  {
    EmptyRunKeepsSentinels(face);
  }

  /** What the source renders: a canvas `(xMax - xMin) / 64` by
      `(yMax - yMin) / 64` pixels whose every cell is the OR of the ink the
      glyphs put there, each glyph loaded at the metrics pass's pen position
      raised by `aboveOriginShift` and placed at
      `(bitmap_left, height - bitmap_top)`. */
  lemma RenderedRun(face: Loader, glyphs: seq<GlyphId>, i: int, j: int)
    requires |glyphs| > 0
    requires BoxesWellFormed(face)
    requires AdvanceIgnoresTranslation(face)
    ensures var m, c := Measure(face, glyphs), RenderAsWritten(face, glyphs);
      && c.width == ToPixels(m.bbox.xMax - m.bbox.xMin)
      && c.height == ToPixels(m.bbox.yMax - m.bbox.yMin)
      && (0 <= i < c.width && 0 <= j < c.height ==>
            At(c, i, j) == Ink(Placements(face, Vector(0, m.aboveOriginShift), glyphs, c.height), i, j))
    ensures var m, shift := Measure(face, glyphs), Vector(0, Measure(face, glyphs).aboveOriginShift);
      forall k :: 0 <= k < |glyphs| ==>
        Trajectory(face, shift, glyphs)[k] == Trajectory(face, Origin, glyphs)[k].Plus(shift)
  {
    var m := Measure(face, glyphs);
    BBoxWellFormed(face, glyphs);
    var blank := BlankCanvas(m.bbox);
    var start := Vector(0, m.aboveOriginShift);
    RenderIsDrawAll(face, blank, start, glyphs);
    if 0 <= i < blank.width && 0 <= j < blank.height {
      DrawAllPixel(blank, Placements(face, start, glyphs, blank.height), i, j);
      IndexInRange(blank.width, blank.height, i, j);
    }
    assert Origin.Plus(start) == start;
    TrajectoryShift(face, Origin, start, glyphs);
  }
}

=== FILE: walk.dfy ===
/** The metrics pass: walk the shaped glyphs once, moving the pen by each
    glyph's advance, to find the ink box of the whole run and the largest
    depth below the baseline. */
module Walk {
  import opened FixedPoint
  import opened Geometry
  import opened Face

  /** Pen position before each glyph when the run is walked from `start`,
      each step adding the advance of the glyph loaded at the current pen. */
  function Trajectory(face: Loader, start: Vector, glyphs: seq<GlyphId>): (pens: seq<Vector>)
    ensures |pens| == |glyphs|
    ensures |glyphs| > 0 ==> pens[0] == start
    decreases |glyphs|
  {
    if |glyphs| == 0 then []
    else [start] + Trajectory(face, start.Plus(face(glyphs[0], start).advance), glyphs[1..])
  }

  /** Pen position after the last glyph of the walk. */
  function PenAfter(face: Loader, start: Vector, glyphs: seq<GlyphId>): Vector
    decreases |glyphs|
  {
    if |glyphs| == 0 then start
    else PenAfter(face, start.Plus(face(glyphs[0], start).advance), glyphs[1..])
  }

  /** The slot each glyph loads into at its pen position along the walk. */
  function Slots(face: Loader, start: Vector, glyphs: seq<GlyphId>): (slots: seq<GlyphSlot>)
    ensures |slots| == |glyphs|
  {
    var pens := Trajectory(face, start, glyphs);
    seq(|glyphs|, k requires 0 <= k < |glyphs| => face(glyphs[k], pens[k]))
  }

  function XMins(s: seq<GlyphSlot>): seq<int> { seq(|s|, k requires 0 <= k < |s| => s[k].cbox.xMin) }
  function YMins(s: seq<GlyphSlot>): seq<int> { seq(|s|, k requires 0 <= k < |s| => s[k].cbox.yMin) }
  function XMaxs(s: seq<GlyphSlot>): seq<int> { seq(|s|, k requires 0 <= k < |s| => s[k].cbox.xMax) }
  function YMaxs(s: seq<GlyphSlot>): seq<int> { seq(|s|, k requires 0 <= k < |s| => s[k].cbox.yMax) }
  function Depths(s: seq<GlyphSlot>): seq<int> { seq(|s|, k requires 0 <= k < |s| => Depth(s[k])) }

  /** Sum of the advances the glyphs have at the origin. */
  function AdvanceSum(face: Loader, glyphs: seq<GlyphId>): Vector
    decreases |glyphs|
  {
    if |glyphs| == 0 then Origin
    else face(glyphs[0], Origin).advance.Plus(AdvanceSum(face, glyphs[1..]))
  }

  /** State of the metrics loop: the translation, the box so far and the
      shift so far. */
  datatype Metrics = Metrics(pen: Vector, bbox: BBox, aboveOriginShift: int)

  /** The loop state before the first glyph: pen at the origin, the inverted
      sentinel box, and `INT_MIN` as the shift. */
  const MeasureStart: Metrics := Metrics(Origin, EmptyBox, IntMin)

  /** One iteration of the metrics loop: load the glyph at the pen, advance
      the pen, grow the box, raise the shift. */
  function MeasureStep(face: Loader, m: Metrics, g: GlyphId): Metrics {
    var slot := face(g, m.pen);
    Metrics(m.pen.Plus(slot.advance), Include(m.bbox, slot.cbox), Higher(m.aboveOriginShift, Depth(slot)))
  }

  function MeasureFrom(face: Loader, m: Metrics, glyphs: seq<GlyphId>): Metrics
    decreases |glyphs|
  {
    if |glyphs| == 0 then m
    else MeasureFrom(face, MeasureStep(face, m, glyphs[0]), glyphs[1..])
  }

  /** The whole metrics pass over a shaped run. */
  function Measure(face: Loader, glyphs: seq<GlyphId>): Metrics {
    MeasureFrom(face, MeasureStart, glyphs)
  }

  /** Walking from `start` is loading the first glyph there and walking the
      rest from the advanced pen. */
  lemma SlotsTail(face: Loader, start: Vector, glyphs: seq<GlyphId>)
    requires |glyphs| > 0
    ensures var s := Slots(face, start, glyphs);
      && s[0] == face(glyphs[0], start)
      && s[1..] == Slots(face, start.Plus(face(glyphs[0], start).advance), glyphs[1..])
  {
    var next := start.Plus(face(glyphs[0], start).advance);
    var s, s' := Slots(face, start, glyphs), Slots(face, next, glyphs[1..]);
    var pens := Trajectory(face, start, glyphs);
    assert pens[1..] == Trajectory(face, next, glyphs[1..]);
    forall k | 0 <= k < |s'| ensures s[1..][k] == s'[k] {
      assert glyphs[1..][k] == glyphs[k + 1];
    }
  }

  /** Each per-glyph projection commutes with dropping the first glyph. */
  lemma ProjectionsTail(s: seq<GlyphSlot>)
    requires |s| > 0
    ensures XMins(s)[0] == s[0].cbox.xMin && XMins(s)[1..] == XMins(s[1..])
    ensures YMins(s)[0] == s[0].cbox.yMin && YMins(s)[1..] == YMins(s[1..])
    ensures XMaxs(s)[0] == s[0].cbox.xMax && XMaxs(s)[1..] == XMaxs(s[1..])
    ensures YMaxs(s)[0] == s[0].cbox.yMax && YMaxs(s)[1..] == YMaxs(s[1..])
    ensures Depths(s)[0] == Depth(s[0]) && Depths(s)[1..] == Depths(s[1..])
  {
  }

  /** The fused loop computes, separately, the end of the pen walk, the
      running minimum or maximum of each box bound over the glyphs' control
      boxes, and the running maximum of their depths. */
  lemma {:induction false} MeasureFromIsFolds(face: Loader, m: Metrics, glyphs: seq<GlyphId>)
    ensures var s := Slots(face, m.pen, glyphs);
      MeasureFrom(face, m, glyphs) == Metrics(
        PenAfter(face, m.pen, glyphs),
        BBox(MinFrom(m.bbox.xMin, XMins(s)), MinFrom(m.bbox.yMin, YMins(s)),
             MaxFrom(m.bbox.xMax, XMaxs(s)), MaxFrom(m.bbox.yMax, YMaxs(s))),
        MaxFrom(m.aboveOriginShift, Depths(s)))
    decreases |glyphs|
  {
    if |glyphs| > 0 {
      var m' := MeasureStep(face, m, glyphs[0]);
      MeasureFromIsFolds(face, m', glyphs[1..]);
      var s := Slots(face, m.pen, glyphs);
      SlotsTail(face, m.pen, glyphs);
      ProjectionsTail(s);
    }
  }

  /** Before glyph `k` the pen sits at the start plus the advances of glyphs
      `0 .. k-1`, and after the walk at the start plus all advances. */
  lemma {:induction false} PenIsAdvanceSum(face: Loader, start: Vector, glyphs: seq<GlyphId>)
    requires AdvanceIgnoresTranslation(face)
    ensures forall k :: 0 <= k < |glyphs| ==>
      Trajectory(face, start, glyphs)[k] == start.Plus(AdvanceSum(face, glyphs[..k]))
    ensures PenAfter(face, start, glyphs) == start.Plus(AdvanceSum(face, glyphs))
    decreases |glyphs|
  {
    if |glyphs| > 0 {
      var a := face(glyphs[0], start).advance;
      var next := start.Plus(a);
      PenIsAdvanceSum(face, next, glyphs[1..]);
      var pens := Trajectory(face, start, glyphs);
      forall k | 0 <= k < |glyphs|
        ensures pens[k] == start.Plus(AdvanceSum(face, glyphs[..k]))
      {
        if k > 0 {
          assert pens[k] == Trajectory(face, next, glyphs[1..])[k - 1];
          assert glyphs[..k][1..] == glyphs[1..][..k - 1];
        }
      }
      assert glyphs[..|glyphs|] == glyphs;
    }
  }

  /** Starting the walk displaced by `d` displaces every pen position by `d`:
      the render pass, which starts at `(0, aboveOriginShift)`, retraces the
      metrics pass shifted by exactly that much. */
  lemma {:induction false} TrajectoryShift(face: Loader, start: Vector, d: Vector, glyphs: seq<GlyphId>)
    requires AdvanceIgnoresTranslation(face)
    ensures forall k :: 0 <= k < |glyphs| ==>
      Trajectory(face, start.Plus(d), glyphs)[k] == Trajectory(face, start, glyphs)[k].Plus(d)
    ensures PenAfter(face, start.Plus(d), glyphs) == PenAfter(face, start, glyphs).Plus(d)
  {
    PenIsAdvanceSum(face, start, glyphs);
    PenIsAdvanceSum(face, start.Plus(d), glyphs);
  }

  /** With no glyphs the loop never runs and the sentinels are left as they were. */
  lemma EmptyRunKeepsSentinels(face: Loader)
    ensures Measure(face, []) == Metrics(Origin, BBox(IntMax, IntMax, IntMin, IntMin), IntMin)
  {
  }

  /** The box the metrics pass ends with covers the control box of every
      glyph at its pen position, and each of its bounds is either the
      sentinel or the matching bound of some glyph: it is the union of the
      glyph boxes. */
  lemma BBoxIsUnion(face: Loader, glyphs: seq<GlyphId>)
    ensures var m, s := Measure(face, glyphs), Slots(face, Origin, glyphs);
      && (forall k :: 0 <= k < |s| ==> m.bbox.Contains(s[k].cbox))
      && (m.bbox.xMin == IntMax || exists k :: 0 <= k < |s| && m.bbox.xMin == s[k].cbox.xMin)
      && (m.bbox.yMin == IntMax || exists k :: 0 <= k < |s| && m.bbox.yMin == s[k].cbox.yMin)
      && (m.bbox.xMax == IntMin || exists k :: 0 <= k < |s| && m.bbox.xMax == s[k].cbox.xMax)
      && (m.bbox.yMax == IntMin || exists k :: 0 <= k < |s| && m.bbox.yMax == s[k].cbox.yMax)
  {
    var m, s := Measure(face, glyphs), Slots(face, Origin, glyphs);
    MeasureFromIsFolds(face, MeasureStart, glyphs);
    forall k | 0 <= k < |s| ensures m.bbox.Contains(s[k].cbox) {
      assert XMins(s)[k] == s[k].cbox.xMin && YMins(s)[k] == s[k].cbox.yMin;
      assert XMaxs(s)[k] == s[k].cbox.xMax && YMaxs(s)[k] == s[k].cbox.yMax;
    }
  }

  /** Every control box the metrics pass sees fits in an `int`. */
  ghost predicate RunFitsInInt(face: Loader, glyphs: seq<GlyphId>) {
    forall k :: 0 <= k < |glyphs| ==> Slots(face, Origin, glyphs)[k].cbox.FitsInInt()
  }

  /** When every glyph box fits in an `int`, the sentinels of a non-empty run
      are all replaced: each bound of the result is the extreme bound of some
      glyph. */
  lemma BBoxBoundsAttained(face: Loader, glyphs: seq<GlyphId>)
    requires |glyphs| > 0
    requires RunFitsInInt(face, glyphs)
    ensures var m, s := Measure(face, glyphs), Slots(face, Origin, glyphs);
      && (exists k :: 0 <= k < |s| && m.bbox.xMin == s[k].cbox.xMin)
      && (exists k :: 0 <= k < |s| && m.bbox.yMin == s[k].cbox.yMin)
      && (exists k :: 0 <= k < |s| && m.bbox.xMax == s[k].cbox.xMax)
      && (exists k :: 0 <= k < |s| && m.bbox.yMax == s[k].cbox.yMax)
  {
    BBoxIsUnion(face, glyphs);
    var m, s := Measure(face, glyphs), Slots(face, Origin, glyphs);
    assert m.bbox.Contains(s[0].cbox) && s[0].cbox.FitsInInt();
    if m.bbox.xMin == IntMax { assert m.bbox.xMin == s[0].cbox.xMin; }
    if m.bbox.yMin == IntMax { assert m.bbox.yMin == s[0].cbox.yMin; }
    if m.bbox.xMax == IntMin { assert m.bbox.xMax == s[0].cbox.xMax; }
    if m.bbox.yMax == IntMin { assert m.bbox.yMax == s[0].cbox.yMax; }
  }

  /** A non-empty run of well-formed glyph boxes yields a well-formed box. */
  lemma BBoxWellFormed(face: Loader, glyphs: seq<GlyphId>)
    requires |glyphs| > 0
    requires BoxesWellFormed(face)
    ensures Measure(face, glyphs).bbox.WellFormed()
  {
    BBoxIsUnion(face, glyphs);
    var s := Slots(face, Origin, glyphs);
    assert s[0].cbox.WellFormed();
  }

  /** `aboveOriginShift` is at least the depth of every glyph and is either
      `INT_MIN` or the depth of some glyph. */
  lemma ShiftIsMaxDepth(face: Loader, glyphs: seq<GlyphId>)
    ensures var m, s := Measure(face, glyphs), Slots(face, Origin, glyphs);
      && (forall k :: 0 <= k < |s| ==> m.aboveOriginShift >= Depth(s[k]))
      && (m.aboveOriginShift == IntMin || exists k :: 0 <= k < |s| && m.aboveOriginShift == Depth(s[k]))
  {
    var m, s := Measure(face, glyphs), Slots(face, Origin, glyphs);
    MeasureFromIsFolds(face, MeasureStart, glyphs);
    assert forall k :: 0 <= k < |s| ==> Depths(s)[k] == Depth(s[k]);
  }

  /** The pen the metrics pass ends with is the sum of all advances. */
  lemma MeasurePenIsAdvanceSum(face: Loader, glyphs: seq<GlyphId>)
    requires AdvanceIgnoresTranslation(face)
    ensures Measure(face, glyphs).pen == AdvanceSum(face, glyphs)
  {
    assert Measure(face, glyphs).pen == PenAfter(face, Origin, glyphs) by {
      MeasureFromIsFolds(face, MeasureStart, glyphs);
    }
    PenIsAdvanceSum(face, Origin, glyphs);
  }
}
